=== FILE: README.md ===
# Conformista form objects in Dafny

Conformista is a Ruby library of form objects. A form class declares, with
`presents`, one or more record models and the attributes it exposes for each.
An instance of the class is then a single facade over those records. It does
four things:

- it reads a record's attributes into its own attributes when the record is
  assigned;
- before validating or saving, it copies its attributes back into the records
  ("delegation");
- it validates every record and copies the records' errors into its own
  errors collection, then runs its own validations;
- it saves every record inside one database transaction, which is rolled back
  unless all of them saved.

The model has six modules:

- `Values`: attribute names, model tags, attribute values (`Nil` or a
  string) and error entries.
- `Presenting`: the `presents` / `present_models` / `present_model` macros.
  A form class is a `FormClass` holding its binding declarations in order.
  The methods the macro synthesises per binding are modelled by looking each
  model up in that sequence:
  - `PresentedModels`: the deduplicated model list;
  - `AttrsFor`: the attribute list of a model's last declaration, whose
    methods override the earlier ones;
  - `CopyAttributes`: the attribute copy done by `load_X_attributes` and
    `delegate_X_attributes`.
- `Records`: the persisted record as the form sees it. It is a class with an
  attribute map, a `persisted?` flag and an errors collection, plus `valid?`
  and `save`. The record's own validations, and whether the database accepts a
  save, come from a `Persistence` oracle.
- `Transactions`: the database as a journal of writes that a rollback
  truncates.
- `Validations`: the flattening of the records' error collections into the
  form's.
- `FormObjects`: the form object itself.
  - The class `FormObject` holds:
    - the instance variables behind the exposed attributes (`fields`);
    - the record instance variable of each presented model (`slots`);
    - the errors collection.
  - It has methods for:
    - the accessors, `build_X`, `X=`, `load_X_attributes`,
      `delegate_X_attributes`, `validate_X` and `persist_X`;
    - `delegate_attributes`, `validate_models` and `copy_validation_errors`;
    - `valid?`, `persist_models` and the transaction wrapper;
    - `save`, `set_attributes`, `persisted?` and `update_attributes`.
  - `New` models `FormClass.new(params)`.
  - A params hash is a sequence of key/value pairs in insertion order. A nil
    hash is `None`.

The `each_model` iterator (lib/conformista/form_object.rb:116-121) is the loop
over `Presented()` inside `DelegateAttributes`, `ValidateModels` and
`CopyValidationErrors`.

Two behaviours of the code that the model keeps:

- **Presenting the same model twice** is accepted. `present_model` includes
  a second module; `presented_models` lists the model once (the `unless
  orig.include?` guard); and the later module's `load_X_attributes` and
  `delegate_X_attributes` override the earlier ones. See
  `PresentedModelsDistinct` and `AttrsForLastDecl`.
- **The first key without a public setter** makes `public_send` raise, after
  the earlier keys have been assigned. The model returns
  `UnknownAttribute(name)` at that key and keeps the earlier assignments.

## Model

| member | source | states |
|---|---|---|
| Presenting.FormClass.PresentModel | lib/conformista/presenting.rb:62-115 | one more binding declaration of the model with its attribute list is appended; earlier ones are kept |
| Presenting.FormClass.PresentModels | lib/conformista/presenting.rb:52-56 | the declarations grow by one binding per hash entry, in the hash's order |
| Presenting.FormClass.Presents | lib/conformista/presenting.rb:41-47 | a single hash argument means `present_models`; otherwise the first argument must be a model and the rest attribute names (`present_model`); each malformed call fails with its own error and changes nothing |
| Presenting.PresentedModels | lib/conformista/presenting.rb:69-73 | a model is listed exactly when some declaration binds it |
| Presenting.PresentedModelsDistinct | lib/conformista/presenting.rb:69-73 | no model is listed twice, however often it is presented |
| Presenting.PresentedModelsOrder | lib/conformista/presenting.rb:69-73 | the models are listed in the order of their first declaration |
| Presenting.AttrsForLastDecl | lib/conformista/presenting.rb:93-103 | a model's load and delegate methods use the attribute list of its last declaration (the most recently included module wins); an undeclared model has none |
| Presenting.AttrsForExposed | lib/conformista/presenting.rb:67 | every attribute a binding loads or delegates has an accessor on the form |
| Presenting.CopyAttributes | lib/conformista/presenting.rb:93-103 | after the copy, each listed attribute reads the source's value and every other attribute keeps the destination's |
| Presenting.CopyAttributesDomain | lib/conformista/presenting.rb:93-103 | the copy sets the listed attributes and keeps every attribute already set |
| Presenting.LoadAfterDelegate | lib/conformista/presenting.rb:93-103 | delegating the form's attributes to a record and then loading them back leaves every attribute of the form reading as it did |
| Records.Record.constructor | lib/conformista/presenting.rb:83-85 | `model.new` is a record of that model with no attribute set, not persisted and without errors |
| Records.Record.Validate | lib/conformista/presenting.rb:105-107 | `valid?` replaces the errors with those the record's validations report for its attributes, and is true exactly when there are none |
| Records.Record.Save | lib/conformista/presenting.rb:109-111 | `save` succeeds exactly when the record is valid and the database accepts it; on success it writes one insert (new record) or update (persisted record) and marks the record persisted; on failure nothing is written and the flag is unchanged |
| Transactions.Database.RollbackTo | lib/conformista/transactions.rb:12-18 | a rollback discards exactly the writes made since the transaction began |
| Validations.FlattenEmpty | lib/conformista/validations.rb:27-33 | nothing is copied exactly when every record's errors collection is empty |
| Validations.FlattenContains | lib/conformista/validations.rb:27-33 | an error is copied exactly when some record has it |
| FormObjects.KnownPrefix | lib/conformista/form_object.rb:91-95 | the keys assigned are the longest prefix of keys that have a setter; the next key, if any, has none |
| FormObjects.FieldsAfterSnoc | lib/conformista/form_object.rb:91-95 | assigning the keys is assigning them one at a time, in hash order |
| FormObjects.LaterParamsWin | lib/conformista/form_object.rb:91-95 | after the assignment, every attribute holds the value given by the last key that writes it, whether an attribute key or a record key whose record is loaded; with no such key it keeps its old value |
| FormObjects.SlotsAfterStep | lib/conformista/presenting.rb:87-91 | an attribute key leaves every record instance variable alone; a record key sets only its model's variable |
| FormObjects.SlotsAfterSources | lib/conformista/form_object.rb:91-95 | every record held after the assignment was held before, was handed over by a key, or was built for a model assigned nil |
| FormObjects.CopyEach | lib/conformista/presenting.rb:93-103 | the attribute-by-attribute loop gives exactly the copy `CopyAttributes` describes |
| FormObjects.New | lib/conformista/form_object.rb:60-62 | a new form object with no errors; its attributes are those the keys assign, starting from none set, with later keys winning; its records are those the keys hand over; the first key without a setter is reported |
| FormObjects.FormObject.BuildRecord | lib/conformista/presenting.rb:83-85 | `build_X` returns a fresh new record of the model |
| FormObjects.FormObject.RecordFor | lib/conformista/presenting.rb:75-81 | the accessor returns the record already held, or builds, stores and returns a fresh one when none is held; no other model's record changes |
| FormObjects.FormObject.LoadAttributes | lib/conformista/presenting.rb:93-97 | the form's listed attributes take the record's values and its other attributes keep theirs; the record comes from the accessor, which builds one when none is held |
| FormObjects.FormObject.AssignRecord | lib/conformista/presenting.rb:87-91 | `X=` stores exactly the given record and loads its listed attributes; after nil, the load goes through the accessor, which builds a fresh new record whose (absent) values are loaded |
| FormObjects.FormObject.DelegateRecordAttributes | lib/conformista/presenting.rb:99-103 | the record's listed attributes take the form's values, its other attributes stay, and every model whose record already agreed with the form still does |
| FormObjects.FormObject.ValidateRecord | lib/conformista/presenting.rb:105-107 | `validate_X` validates the model's record (built if none) and reports whether it has no errors |
| FormObjects.FormObject.PersistRecord | lib/conformista/presenting.rb:109-111 | `persist_X` saves the model's record; it reports whether that record would save; if so it writes exactly one row, an insert of the record's attributes when it was new and an update when it was persisted; otherwise it writes nothing |
| FormObjects.FormObject.DelegateAttributes | lib/conformista/form_object.rb:101-105 | afterwards every presented model has a record that holds the form's value of each of its listed attributes; records already held are kept and the others are freshly built; an attribute of a record held before changes only if a presented binding whose record it is lists that attribute |
| FormObjects.FormObject.ValidateModels | lib/conformista/validations.rb:21-25 | every presented record's errors are those its validations report for its attributes; no record is replaced |
| FormObjects.FormObject.CopyValidationErrors | lib/conformista/validations.rb:27-33 | the form's errors gain every presented record's errors, record by record in presentation order and in each record's own order (the order within each attribute, see Left out) |
| FormObjects.FormObject.RunValidationCallbacks | lib/conformista/validations.rb:12-15 | the before-validation callbacks run in registration order: after them the records hold the form's values, are validated on those values, and their errors are appended to the form's; of the records held before, only listed attributes change |
| FormObjects.FormObject.RunValidations | lib/conformista/validations.rb:12-15 | the form's own validation errors are appended after the copied record errors; of the records held before, only listed attributes change |
| FormObjects.FormObject.IsValid | lib/conformista/validations.rb:12-17 | `valid?` rebuilds the errors from scratch: the presented records' errors (on the delegated values) followed by the form's own; nothing is kept from an earlier call; it is true exactly when there are none; of the records held before, only listed attributes change |
| FormObjects.FormObject.CopiedErrorsEmpty | lib/conformista/validations.rb:27-33 | no record error is copied exactly when no presented record has errors |
| FormObjects.FormObject.PersistModels | lib/conformista/form_object.rb:107-114 | every presented record is saved even after one has failed; the result is true exactly when all would save, and then all are persisted with one journal entry per successful save; a record that becomes persisted has had its row inserted |
| FormObjects.FormObject.WrapInDatabaseTransaction | lib/conformista/transactions.rb:6-18 | all or nothing: either every presented record saved and is persisted, and each one that was new has had its row inserted, or the database and every record's persisted flag are as they were before the transaction |
| FormObjects.FormObject.RunBeforeSaveCallbacks | lib/conformista/form_object.rb:53-57 | the before-save callbacks delegate the attributes and then run `valid?`; the chain goes on exactly when the form has no errors, which is exactly when the form's own rules and every presented record's validations report nothing on the delegated values; of the records held before, only listed attributes change |
| FormObjects.FormObject.Save | lib/conformista/form_object.rb:73-77 | `save` delegates first and succeeds exactly when the form is valid and the database accepts every presented record, that is, exactly when the form's own rules report nothing and every presented record would save on its delegated values; of the records held before, only listed attributes change; on success every record is persisted with one journal entry per successful save, and every presented record that was not persisted before (including one just built) has an insert of its delegated attributes among the new writes; otherwise nothing is written and no record is left persisted that was not persisted before |
| FormObjects.FormObject.Assign | lib/conformista/form_object.rb:93 | an attribute key sets that attribute only; a record key stores the record (or a fresh one for nil) for its model and loads that model's listed attributes |
| FormObjects.FormObject.SetAttributes | lib/conformista/form_object.rb:91-95 | keys are assigned in hash order (none for a nil hash) and the first one without a setter is reported; the attributes and records end up as the assigned prefix of keys dictates |
| FormObjects.FormObject.IsPersisted | lib/conformista/form_object.rb:65-69 | `persisted?` is true exactly when every presented model's record is persisted; a missing record is built, and only presented models gain one |
| FormObjects.FormObject.UpdateAttributes | lib/conformista/form_object.rb:84-87 | the keys are assigned as by `set_attributes`; an unknown key stops before any save; otherwise the result is that of `save`, true exactly when the form's own rules report nothing and every presented record would save; whenever the result is false, the database is unchanged |

## Left out

- Ruby metaprogramming is not modelled. The module that `present_model` defines and includes becomes a declaration in a sequence. The per-binding methods become lookups in that sequence.
- Overrides of the per-binding methods are not modelled (`build_X`, `persist_X` calling `save!`, a custom accessor, and so on). The model has the default methods only.
- User callbacks registered on `:save` and `:persist` are not modelled. Neither is ActiveModel's callback machinery itself. A before-save callback that returns false is taken to halt the chain, as the library's callback order relies on.
- A model is identified by its singular model name. Two model classes with the same singular name are not distinguished.
- A key that names both an attribute and a presented model is resolved as an attribute when it is a `SetField` param, and as a model when it is a `SetRecord` param.
- Duplicate keys in one params hash are allowed by the model, though a Ruby hash cannot hold them. This is more general than the code.
- Records accept every attribute name. A record class without a setter for a listed attribute would raise; that case is not modelled.
- A nil value is encoded by the kind of its key: `SetRecord(t, null)` for a presented model's key and `SetField(a, Nil)` for an attribute key. The other encoding of the same nil (`SetField` naming a model, `SetRecord` naming an attribute) is reported as an unknown attribute, though Ruby would call the setter.
- Public setters other than the presented attributes and records are not modelled, for example `validation_context=` from ActiveModel.
- The `Persistence` oracle sees only a record's model and attributes. Validations that depend on the database's rows, on whether the record is new (`on: :create`), or on earlier saves in the same transaction (a `uniqueness` check run again inside `save`) are not modelled. The save results stated for `Records.Record.Save`, `PersistModels`, `Save` and `UpdateAttributes` rely on this.
- The journal holds one entry per successful save: every save of a persisted record appends an `Update`, even when nothing changed, though ActiveRecord sends no UPDATE for an unchanged record.
- Exceptions raised while saving are not modelled, nor is nesting of database transactions. The database is a journal of writes, the record's validations and the database's acceptance are a `Persistence` oracle, and no I/O is modelled.
- The return value of `ActiveRecord::Base.transaction` is not modelled. After a rescued `ActiveRecord::Rollback` it returns nil. `run_callbacks` ignores the around callback's value, and `save` returns the value of the `persist_models` block, which is false; the model returns that value.
- FormObjects.FormObject.PersistModels: names the row written only for a record that becomes persisted (its insert). For a record already persisted, the update it writes is counted but not named. The order of the writes is not stated; the body saves in `Presented()` order, as `presented_models.inject` does. The records' errors after the saves are not restated.
- FormObjects.FormObject.WrapInDatabaseTransaction: on a rollback, restores the records' persisted flags and the database. It leaves their attributes and errors as the saves left them, as ActiveRecord does.
- FormObjects.FormObject.Save: the content of the form's errors collection afterwards is not restated (it is stated by `IsValid`); the result is stated through the form's own rules and each presented record's `WouldSave`. The attributes of a record it builds are not stated beyond the listed ones (see `DelegateAttributes`). For a presented record already persisted, the update it writes is counted but not named. The order of the writes is not stated; `PersistModels` saves in `Presented()` order.
- FormObjects.FormObject.LoadAttributes: for a binding with no attributes, `load_X_attributes` never calls the accessor, so no record is built; the model calls it anyway. Every later accessor call (validation, saving, `persisted?`) builds the record, so only the moment it is built differs.
- FormObjects.FormObject.AssignRecord: for a binding with no attributes, `X=` with nil leaves the instance variable nil in the source. The model holds a freshly built record there, which the next accessor call would have built anyway.
- FormObjects.FormObject.DelegateRecordAttributes: for a binding with no attributes, `delegate_X_attributes` never calls the accessor. The model builds the record there. Inside `delegate_attributes` nothing differs, because `each_model` has already built the record through the accessor (lib/conformista/form_object.rb:119); the difference shows only when `delegate_X_attributes` is called on its own.
- FormObjects.FormObject.UpdateAttributes: does not restate the record-slot relation that `SetAttributes` states. It does not restate the persisted flags after a failed save that `Save` states, nor which attributes of the held records stay as they were.
- Records.Record.constructor: a new record has no attribute set, so each attribute reads as nil. Column defaults and `after_initialize` callbacks of the ActiveRecord class are not modelled. This affects every value read from a freshly built record. Those reads are `AssignRecord` with nil, the `WrittenValue` of a nil record in `LaterParamsWin`, and the inserted row of a record first built while saving.
- FormObjects.FormObject.CopyValidationErrors: the form's errors are a flat sequence of (attribute, message) entries in the order they are added. ActiveModel::Errors groups the messages by attribute, so the stated order is kept only within each attribute. Across attributes, `errors.each` in Rails 4 yields the attributes in the order each first received a message, which the flat sequence does not restate.
- FormObjects.FormObject.RunValidations: "after the copied record errors" holds in the flat sequence; in ActiveModel::Errors it is the order within each attribute only. The attributes of a record it builds are not stated beyond the listed ones (see `DelegateAttributes`).
- FormObjects.FormObject.IsValid: "followed by the form's own" and the record-by-record order hold in the flat sequence; in ActiveModel::Errors they are the order within each attribute only. The content and the emptiness test do not depend on that order. The attributes of a record it builds are not stated beyond the listed ones (see `DelegateAttributes`).
- FormObjects.FormObject.DelegateAttributes: for a record built during the call, only its model and its new-record state are stated, not that its attributes are exactly the form's values of the listed attributes. The same holds for `RunValidationCallbacks`, `RunValidations`, `IsValid`, `RunBeforeSaveCallbacks` and `Save`, which build records through it.
- FormObjects.FormObject.RunValidationCallbacks: the attributes of a record it builds are not stated beyond the listed ones (see `DelegateAttributes`).
- FormObjects.FormObject.RunBeforeSaveCallbacks: the attributes of a record it builds are not stated beyond the listed ones (see `DelegateAttributes`).
- FormObjects.FormObject.IsPersisted: when it stops at the first record that is not persisted, it does not say which later records were left unbuilt. It says only that every record it built belongs to a presented model.

=== FILE: form_object.dfy ===
/**
 * The form object: a facade over the records its class presents. It keeps
 * one attribute per exposed name, one lazily built (or injected) record per
 * presented model and an errors collection, and orchestrates load, delegate,
 * validate and persist over the bindings in declaration order.
 */
module FormObjects {
  import opened Values
  import opened Presenting
  import opened Transactions
  import opened Records
  import opened Validations

  /** One `key => value` pair of the hash given to `new` or `update_attributes`:
      either an exposed attribute or a record (`post: record`, possibly nil). */
  datatype Param = SetField(attr: Attr, value: Value) | SetRecord(tag: Tag, record: Record?)

  /** The result of assigning a params hash: all assigned, or the name of the
      first key that has no setter (Ruby raises there). */
  datatype Assignment = Assigned | UnknownAttribute(name: string)

  function ParamName(p: Param): string
  {
    match p
    case SetField(a, _) => a
    case SetRecord(t, _) => t
  }

  /** Whether the form object has a setter for the key of `p`. */
  predicate Known(decls: seq<Decl>, p: Param)
  {
    match p
    case SetField(a, _) => a in FormAttrs(decls)
    case SetRecord(t, _) => t in PresentedModels(decls)
  }

  /** How many params are assigned before the first one without a setter. */
  function KnownPrefix(decls: seq<Decl>, ps: seq<Param>): (n: nat)
    ensures n <= |ps|
    ensures forall i :: 0 <= i < n ==> Known(decls, ps[i])
    ensures n < |ps| ==> !Known(decls, ps[n])
  {
    if ps == [] || !Known(decls, ps[0]) then 0
    else 1 + KnownPrefix(decls, ps[1..])
  }

  /** The records the params hand over. */
  ghost function ParamRecords(ps: seq<Param>): set<Record>
  {
    set p | p in ps && p.SetRecord? && p.record != null :: p.record
  }

  /** The attributes of some records, as they are at one moment. */
  ghost function AttrsOfRecords(records: set<Record>): (view: map<Record, map<Attr, Value>>)
    reads records`attrs
    ensures view.Keys == records
  {
    map r | r in records :: r.attrs
  }

  /** The attributes `X=` loads from `r` given a snapshot of record
      attributes: none for nil (a fresh record is built in its place). */
  function Loaded(view: map<Record, map<Attr, Value>>, r: Record?): map<Attr, Value>
  {
    if r != null && r in view then view[r] else map[]
  }

  /** The attribute values after assigning one param: an attribute setter
      sets one value; `X=` stores the record and loads its listed attributes. */
  function AssignParam(decls: seq<Decl>, view: map<Record, map<Attr, Value>>, fields: map<Attr, Value>, p: Param): map<Attr, Value>
  {
    match p
    case SetField(a, v) => fields[a := v]
    case SetRecord(t, r) => CopyAttributes(fields, AttrsFor(decls, t), Loaded(view, r))
  }

  /** The attribute values after assigning the params one after the other, in
      key order. */
  function FieldsAfter(decls: seq<Decl>, view: map<Record, map<Attr, Value>>, fields: map<Attr, Value>, ps: seq<Param>): map<Attr, Value>
    decreases |ps|
  {
    if ps == [] then fields
    else FieldsAfter(decls, view, AssignParam(decls, view, fields, ps[0]), ps[1..])
  }

  /** Whether assigning `p` writes attribute `a`. */
  predicate Writes(decls: seq<Decl>, p: Param, a: Attr)
  {
    match p
    case SetField(b, _) => b == a
    case SetRecord(t, _) => a in AttrsFor(decls, t)
  }

  /** The value assigning `p` gives attribute `a`. */
  function WrittenValue(view: map<Record, map<Attr, Value>>, p: Param, a: Attr): Value
  {
    match p
    case SetField(_, v) => v
    case SetRecord(_, r) => Get(Loaded(view, r), a)
  }

  /** The value of attribute `a` written by the last param that writes it, or
      its value before the params when none does. */
  function LastWrite(decls: seq<Decl>, view: map<Record, map<Attr, Value>>, fields: map<Attr, Value>, ps: seq<Param>, a: Attr): Value
  {
    if ps == [] then Get(fields, a)
    else
      var n := |ps| - 1;
      if Writes(decls, ps[n], a) then WrittenValue(view, ps[n], a)
      else LastWrite(decls, view, fields, ps[..n], a)
  }

  /** Assigning a run of params and then one more is assigning that one to
      the result. */
  lemma {:induction false} FieldsAfterSnoc(decls: seq<Decl>, view: map<Record, map<Attr, Value>>, fields: map<Attr, Value>, ps: seq<Param>, p: Param)
    ensures FieldsAfter(decls, view, fields, ps + [p]) == AssignParam(decls, view, FieldsAfter(decls, view, fields, ps), p)
    decreases |ps|
  {
    if ps == [] {
      assert [p][1..] == [];
    } else {
      assert (ps + [p])[1..] == ps[1..] + [p];
      FieldsAfterSnoc(decls, view, AssignParam(decls, view, fields, ps[0]), ps[1..], p);
    }
  }

  /** `FieldsAfterSnoc` for the first `i + 1` params. */
  lemma FieldsAfterPrefix(decls: seq<Decl>, view: map<Record, map<Attr, Value>>, fields: map<Attr, Value>, ps: seq<Param>, i: nat)
    requires i < |ps|
    ensures FieldsAfter(decls, view, fields, ps[..i + 1]) == AssignParam(decls, view, FieldsAfter(decls, view, fields, ps[..i]), ps[i])
  {
    assert ps[..i + 1] == ps[..i] + [ps[i]];
    FieldsAfterSnoc(decls, view, fields, ps[..i], ps[i]);
  }

  /** Later keys win: after the params, every attribute holds the value of
      the last param that writes it, a loaded record overriding an earlier
      attribute setter and the other way round. */
  lemma {:induction false} LaterParamsWin(decls: seq<Decl>, view: map<Record, map<Attr, Value>>, fields: map<Attr, Value>, ps: seq<Param>, a: Attr)
    ensures Get(FieldsAfter(decls, view, fields, ps), a) == LastWrite(decls, view, fields, ps, a)
    decreases |ps|
  {
    if ps != [] {
      var n := |ps| - 1;
      assert ps == ps[..n] + [ps[n]];
      FieldsAfterSnoc(decls, view, fields, ps[..n], ps[n]);
      LaterParamsWin(decls, view, fields, ps[..n], a);
    }
  }

  /** The record handed over by the last `SetRecord` param for model `t`, if any. */
  function LastAssigned(ps: seq<Param>, t: Tag): Option<Record?>
  {
    if ps == [] then None
    else
      var p := ps[|ps| - 1];
      if p.SetRecord? && p.tag == t then Some(p.record)
      else LastAssigned(ps[..|ps| - 1], t)
  }

  /** How the record instance variables relate before and after assigning
      `ps`: a model no param names keeps its instance variable (set or not),
      and one that a param names ends up set, to the record of the last such
      param when that record is not nil. */
  ghost predicate SlotsAfter(before: map<Tag, Record>, after: map<Tag, Record>, ps: seq<Param>)
  {
    forall t :: match LastAssigned(ps, t)
      case None => (t in after <==> t in before) && (t in after ==> after[t] == before[t])
      case Some(r) => t in after && (r != null ==> after[t] == r)
  }

  /** Assigning one more param extends the relation: an attribute setter
      leaves the instance variables alone, and `X=` sets only `X`'s. */
  lemma SlotsAfterStep(before: map<Tag, Record>, mid: map<Tag, Record>, after: map<Tag, Record>, ps: seq<Param>, i: nat)
    requires i < |ps| && SlotsAfter(before, mid, ps[..i])
    requires ps[i].SetField? ==> after == mid
    requires ps[i].SetRecord? ==>
               ps[i].tag in after && after == mid[ps[i].tag := after[ps[i].tag]] &&
               (ps[i].record != null ==> after[ps[i].tag] == ps[i].record)
    ensures SlotsAfter(before, after, ps[..i + 1])
  {
    assert ps[..i + 1][..i] == ps[..i];
  }

  /** One more param changes the last assignment of its model only. */
  lemma LastAssignedSnoc(ps: seq<Param>, i: nat)
    requires i < |ps|
    ensures forall t :: LastAssigned(ps[..i + 1], t) ==
              if ps[i].SetRecord? && ps[i].tag == t then Some(ps[i].record) else LastAssigned(ps[..i], t)
  {
    var qs := ps[..i + 1];
    assert qs[..|qs| - 1] == ps[..i] && qs[|qs| - 1] == ps[i];
    forall t
      ensures LastAssigned(qs, t) ==
              if ps[i].SetRecord? && ps[i].tag == t then Some(ps[i].record) else LastAssigned(ps[..i], t)
    {
      assert LastAssigned(qs, t) ==
             if qs[|qs| - 1].SetRecord? && qs[|qs| - 1].tag == t then Some(qs[|qs| - 1].record)
             else LastAssigned(qs[..|qs| - 1], t);
    }
  }

  /** Where the records held after assigning `ps` come from: a record held
      before, a record one of the params hands over, or the one built for a
      model last assigned nil. */
  lemma SlotsAfterSources(before: map<Tag, Record>, after: map<Tag, Record>, ps: seq<Param>)
    requires SlotsAfter(before, after, ps)
    ensures forall t :: t in after ==>
              after[t] in before.Values || after[t] in ParamRecords(ps) || LastAssigned(ps, t) == Some(null)
  {
    forall t | t in after
      ensures after[t] in before.Values || after[t] in ParamRecords(ps) || LastAssigned(ps, t) == Some(null)
    {
      LastAssignedIn(ps, t);
    }
  }

  /** A record that is the last assignment of a model is handed over by a param. */
  lemma {:induction false} LastAssignedIn(ps: seq<Param>, t: Tag)
    ensures LastAssigned(ps, t).Some? && LastAssigned(ps, t).value != null ==> LastAssigned(ps, t).value in ParamRecords(ps)
  {
    if ps != [] {
      var n := |ps| - 1;
      LastAssignedIn(ps[..n], t);
      if !(ps[n].SetRecord? && ps[n].tag == t) && LastAssigned(ps[..n], t).Some? && LastAssigned(ps[..n], t).value != null {
        var p :| p in ps[..n] && p.SetRecord? && p.record == LastAssigned(ps[..n], t).value;
        assert p in ps;
      }
    }
  }

  /** The params of `set_attributes`: a nil params hash assigns nothing. */
  function Entries(params: Option<seq<Param>>): seq<Param>
  {
    if params.Some? then params.value else []
  }

  /** The params `set_attributes` assigns before it stops. */
  function Applied(decls: seq<Decl>, params: Option<seq<Param>>): seq<Param>
  {
    Entries(params)[..KnownPrefix(decls, Entries(params))]
  }

  /** What `set_attributes` reports: done, or the first key without a setter. */
  function AssignOutcome(decls: seq<Decl>, params: Option<seq<Param>>): Assignment
  {
    var ps := Entries(params);
    var n := KnownPrefix(decls, ps);
    if n == |ps| then Assigned else UnknownAttribute(ParamName(ps[n]))
  }

  /** `attributes.each { |a| dst.a = src.a }`, one assignment at a time. */
  method CopyEach(dst: map<Attr, Value>, attrs: seq<Attr>, src: map<Attr, Value>) returns (r: map<Attr, Value>)
    ensures r == CopyAttributes(dst, attrs, src)
  {
    r := dst;
    for i := 0 to |attrs|
      invariant r == CopyAttributes(dst, attrs[..i], src)
    {
      assert attrs[..i + 1][..i] == attrs[..i];
      r := r[attrs[i] := Get(src, attrs[i])];
    }
    assert attrs[..|attrs|] == attrs;
  }

  class FormObject {
    /** The class's binding declarations, in the order they were made. */
    const decls: seq<Decl>
    /** The form's own validations (`validates :title, ...`): the errors they
        report for given attribute values. */
    const rules: map<Attr, Value> -> seq<ErrorEntry>
    /** The instance variables behind the exposed attributes; one never
        assigned is absent and reads as nil. */
    var fields: map<Attr, Value>
    /** The record instance variable of each presented model; an absent key
        is a nil instance variable. */
    var slots: map<Tag, Record>
    /** The form's errors collection. */
    var errors: seq<ErrorEntry>

    /** `presented_models`. */
    function Presented(): seq<Tag>
    {
      PresentedModels(decls)
    }

    /** The attribute list of model `t`'s binding. */
    function Attrs(t: Tag): seq<Attr>
    {
      AttrsFor(decls, t)
    }

    /** The record objects currently held. */
    function Records(): set<Record>
      reads this`slots
    {
      slots.Values
    }

    /** The record held for `t`, if any, as a frame. */
    ghost function Slot(t: Tag): set<Record>
      reads this`slots
    {
      if t in slots then {slots[t]} else {}
    }

    /** Every presented model's record has been built or assigned. */
    ghost predicate Built()
      reads this`slots
    {
      forall t :: t in Presented() ==> t in slots
    }

    /** The errors collections of the records held for `tags`, in order; a
        tag with no record contributes an empty collection. */
    ghost function ErrorsOf(tags: seq<Tag>): seq<seq<ErrorEntry>>
      reads this`slots, Records()`errors
    {
      if tags == [] then []
      else
        var t := tags[|tags| - 1];
        ErrorsOf(tags[..|tags| - 1]) + [if t in slots then slots[t].errors else []]
    }

    /** The record held for `t` holds the form's value of every attribute
        `t`'s binding lists. */
    ghost predicate HoldsForm(t: Tag)
      reads this`slots, this`fields, Slot(t)`attrs
    {
      t in slots && forall a :: a in Attrs(t) ==> Get(slots[t].attrs, a) == Get(fields, a)
    }

    /** Every presented record holds the form's value of every attribute its
        binding lists. */
    ghost predicate Delegated()
      reads this`slots, this`fields, Records()`attrs
    {
      Built() && forall t :: t in Presented() ==> HoldsForm(t)
    }

    /** Whether attribute `a` of `r` is listed by a binding among `tags`
        whose record `r` is. */
    ghost predicate ListedFor(tags: seq<Tag>, r: Record, a: Attr)
      reads this`slots
    {
      exists u :: u in tags && u in slots && slots[u] == r && a in Attrs(u)
    }

    /** Whether `r` is the record of a presented model that lists `a`:
        the only attributes `delegate_attributes` writes. */
    ghost predicate Listed(r: Record, a: Attr)
      reads this`slots
    {
      ListedFor(Presented(), r, a)
    }

    /** `persisted?` of every presented record. */
    ghost predicate AllPersisted()
      reads this`slots, Records()`persisted
    {
      forall t :: t in Presented() ==> t in slots && slots[t].persisted
    }

    /** The slots held before are still held. */
    ghost predicate Extends(before: map<Tag, Record>)
      reads this`slots
    {
      forall t :: t in before ==> t in slots && slots[t] == before[t]
    }

    /** Allocation: no instance variable set, no errors. */
    constructor (decls: seq<Decl>, rules: map<Attr, Value> -> seq<ErrorEntry>)
      ensures this.decls == decls && this.rules == rules
      ensures fields == map[] && slots == map[] && errors == []
    {
      this.decls := decls;
      this.rules := rules;
      fields := map[];
      slots := map[];
      errors := [];
    }

    /** `build_X`: a new instance of the model. */
    method BuildRecord(t: Tag) returns (r: Record)
      ensures fresh(r) && r.IsNew(t)
    {
      r := new Record(t);
    }

    /** The accessor `X`: builds the record on first use, then returns the
        same one. */
    method RecordFor(t: Tag) returns (r: Record)
      requires Declared(decls, t)
      modifies this`slots
      ensures slots == old(slots)[t := r]
      ensures t in old(slots) ==> r == old(slots)[t]
      ensures t !in old(slots) ==> fresh(r) && r.IsNew(t)
    {
      if t !in slots {
        r := BuildRecord(t);
        slots := slots[t := r];
      } else {
        r := slots[t];
      }
    }

    /** `load_X_attributes`: copies the listed attributes from the record
        (built if need be) to the form. */
    method LoadAttributes(t: Tag)
      requires Declared(decls, t)
      modifies this`slots, this`fields
      ensures t in slots && slots == old(slots)[t := slots[t]]
      ensures t in old(slots) ==> slots[t] == old(slots)[t]
      ensures t !in old(slots) ==> fresh(slots[t]) && slots[t].IsNew(t)
      ensures fields == CopyAttributes(old(fields), Attrs(t), slots[t].attrs)
    {
      var r := RecordFor(t);
      fields := CopyEach(fields, Attrs(t), r.attrs);
    }

    /** `X=`: stores exactly the given record (nil clears the instance
        variable) and loads the listed attributes from it; loading from a
        cleared one builds a fresh record first. */
    method AssignRecord(t: Tag, record: Record?)
      requires Declared(decls, t)
      modifies this`slots, this`fields
      ensures t in slots && slots == old(slots)[t := slots[t]]
      ensures record != null ==> slots[t] == record
      ensures record == null ==> fresh(slots[t]) && slots[t].IsNew(t)
      ensures fields == CopyAttributes(old(fields), Attrs(t), slots[t].attrs)
    {
      if record == null {
        slots := slots - {t};
      } else {
        slots := slots[t := record];
      }
      LoadAttributes(t);
    }

    /** `delegate_X_attributes`: copies the listed attributes from the form to
        the record (built if need be); the record's other attributes stay.
        Every write gives an attribute the form's value of it, so a record
        held for several models keeps what the others delegated. */
    method DelegateRecordAttributes(t: Tag)
      requires Declared(decls, t)
      modifies this`slots, Slot(t)`attrs
      ensures t in slots && slots == old(slots)[t := slots[t]]
      ensures t in old(slots) ==> slots[t] == old(slots)[t]
      ensures t !in old(slots) ==> fresh(slots[t]) && slots[t].model == t && !slots[t].persisted && slots[t].errors == []
      ensures slots[t].attrs == CopyAttributes(if t in old(slots) then old(slots[t].attrs) else map[], Attrs(t), fields)
      ensures HoldsForm(t) && forall u :: old(HoldsForm(u)) ==> HoldsForm(u)
    {
      var r := RecordFor(t);
      r.attrs := CopyEach(r.attrs, Attrs(t), fields);
    }

    /** `validate_X`: the record's `valid?`. */
    method ValidateRecord(t: Tag, persistence: Persistence) returns (ok: bool)
      requires Declared(decls, t)
      modifies this`slots, Slot(t)`errors
      ensures t in slots && slots == old(slots)[t := slots[t]]
      ensures t in old(slots) ==> slots[t] == old(slots)[t]
      ensures t !in old(slots) ==> fresh(slots[t]) && slots[t].model == t && slots[t].attrs == map[] && !slots[t].persisted
      ensures slots[t].errors == persistence.recordErrors(slots[t].model, slots[t].attrs)
      ensures ok <==> slots[t].errors == []
    {
      var r := RecordFor(t);
      ok := r.Validate(persistence);
    }

    /** `persist_X`: the record's `save`. */
    method PersistRecord(t: Tag, persistence: Persistence, db: Database) returns (saved: bool)
      requires Declared(decls, t)
      modifies this`slots, Slot(t)`errors, Slot(t)`persisted, db
      ensures t in slots && slots == old(slots)[t := slots[t]]
      ensures t in old(slots) ==> slots == old(slots)
      ensures t !in old(slots) ==> fresh(slots[t]) && slots[t].model == t && slots[t].attrs == map[]
      ensures slots[t].errors == persistence.recordErrors(slots[t].model, slots[t].attrs)
      ensures saved <==> slots[t].WouldSave(persistence)
      ensures saved ==> slots[t].persisted &&
                        db.writes == old(db.writes) + [SaveWrite(slots[t].model, slots[t].attrs, t in old(slots) && old(slots[t].persisted))]
      ensures !saved ==> db.writes == old(db.writes) && slots[t].persisted == (t in old(slots) && old(slots[t].persisted))
    {
      var r := RecordFor(t);
      saved := r.Save(persistence, db);
    }

    /** `delegate_attributes`: `delegate_X_attributes` for every presented
        model in order, building any record not yet held. */
    method DelegateAttributes()
      modifies this`slots, Records()`attrs
      ensures Delegated() && Extends(old(slots))
      ensures forall t :: t in slots && t !in old(slots) ==>
                fresh(slots[t]) && slots[t].model == t && !slots[t].persisted && slots[t].errors == []
      ensures forall r, a :: r in old(Records()) && Get(r.attrs, a) != Get(old(r.attrs), a) ==>
                Listed(r, a)
    {
      var presented := Presented();
      for i := 0 to |presented|
        invariant Extends(old(slots))
        invariant forall t :: t in slots && t !in old(slots) ==>
                    fresh(slots[t]) && slots[t].model == t && !slots[t].persisted && slots[t].errors == []
        invariant forall j :: 0 <= j < i ==> HoldsForm(presented[j])
        invariant forall r, a :: r in old(Records()) && Get(r.attrs, a) != Get(old(r.attrs), a) ==>
                    ListedFor(presented[..i], r, a)
      {
        DelegateRecordAttributes(presented[i]);
      }
    }

    /** `validate_models`: `validate_X` for every presented model in order,
        after `delegate_attributes` has built them all; the results are not
        used. */
    method ValidateModels(persistence: Persistence)
      requires Built()
      modifies this`slots, Records()`errors
      ensures slots == old(slots)
      ensures forall t :: t in Presented() ==> slots[t].errors == persistence.recordErrors(slots[t].model, slots[t].attrs)
    {
      var presented := Presented();
      for i := 0 to |presented|
        invariant slots == old(slots)
        invariant forall j :: 0 <= j < i ==>
                    slots[presented[j]].errors == persistence.recordErrors(slots[presented[j]].model, slots[presented[j]].attrs)
      {
        var _ := ValidateRecord(presented[i], persistence);
      }
    }

    /** `copy_validation_errors`: appends every presented record's errors to
        the form's, record by record. */
    method CopyValidationErrors()
      requires Built()
      modifies this`errors
      ensures errors == old(errors) + Flatten(ErrorsOf(Presented()))
    {
      var presented := Presented();
      var copied := [];
      for i := 0 to |presented|
        invariant copied == Flatten(ErrorsOf(presented[..i]))
      {
        assert presented[..i + 1][..i] == presented[..i];
        copied := copied + slots[presented[i]].errors;
      }
      assert presented[..|presented|] == presented;
      errors := errors + copied;
    }

    /** The before-validation callbacks in their registration order:
        `delegate_attributes`, `validate_models`, `copy_validation_errors`. */
    method RunValidationCallbacks(persistence: Persistence)
      modifies this`slots, this`errors, Records()`attrs, Records()`errors
      ensures Delegated() && Extends(old(slots))
      ensures forall t :: t in slots && t !in old(slots) ==> fresh(slots[t]) && slots[t].model == t && !slots[t].persisted
      ensures forall r, a :: r in old(Records()) && Get(r.attrs, a) != Get(old(r.attrs), a) ==>
                Listed(r, a)
      ensures forall t :: t in Presented() ==> slots[t].errors == persistence.recordErrors(slots[t].model, slots[t].attrs)
      ensures errors == old(errors) + Flatten(ErrorsOf(Presented()))
    {
      DelegateAttributes();
      ValidateModels(persistence);
      CopyValidationErrors();
    }

    /** `valid?`: clears the errors, then runs the before-validation
        callbacks (delegate, validate the records, copy their errors) and
        finally the form's own validations; valid when no error was added. */
    method IsValid(persistence: Persistence) returns (valid: bool)
      modifies this`slots, this`errors, Records()`attrs, Records()`errors
      ensures Delegated() && Extends(old(slots))
      ensures forall t :: t in slots && t !in old(slots) ==> fresh(slots[t]) && slots[t].model == t && !slots[t].persisted
      ensures forall r, a :: r in old(Records()) && Get(r.attrs, a) != Get(old(r.attrs), a) ==>
                Listed(r, a)
      ensures forall t :: t in Presented() ==> slots[t].errors == persistence.recordErrors(slots[t].model, slots[t].attrs)
      ensures errors == Flatten(ErrorsOf(Presented())) + rules(fields)
      ensures valid <==> errors == []
    {
      errors := [];
      RunValidations(persistence);
      valid := errors == [];
    }

    /** `run_validations!`: the before-validation callbacks, then the form's
        own validators, whose errors are appended. */
    method RunValidations(persistence: Persistence)
      modifies this`slots, this`errors, Records()`attrs, Records()`errors
      ensures Delegated() && Extends(old(slots))
      ensures forall t :: t in slots && t !in old(slots) ==> fresh(slots[t]) && slots[t].model == t && !slots[t].persisted
      ensures forall r, a :: r in old(Records()) && Get(r.attrs, a) != Get(old(r.attrs), a) ==>
                Listed(r, a)
      ensures forall t :: t in Presented() ==> slots[t].errors == persistence.recordErrors(slots[t].model, slots[t].attrs)
      ensures errors == old(errors) + Flatten(ErrorsOf(Presented())) + rules(fields)
    {
      RunValidationCallbacks(persistence);
      errors := errors + rules(fields);
    }

    /** Each entry of `ErrorsOf(tags)` is the errors collection of the
        record held for the tag at the same position. */
    lemma {:induction false} ErrorsOfAt(tags: seq<Tag>)
      ensures |ErrorsOf(tags)| == |tags|
      ensures forall i :: 0 <= i < |tags| ==>
                ErrorsOf(tags)[i] == if tags[i] in slots then slots[tags[i]].errors else []
    {
      if tags != [] {
        var n := |tags| - 1;
        ErrorsOfAt(tags[..n]);
        assert forall i :: 0 <= i < n ==> tags[..n][i] == tags[i];
      }
    }

    /** The copied record errors are empty exactly when every presented
        record has no errors. */
    lemma CopiedErrorsEmpty()
      requires Built()
      ensures Flatten(ErrorsOf(Presented())) == [] <==> forall t :: t in Presented() ==> slots[t].errors == []
    {
      var presented := Presented();
      ErrorsOfAt(presented);
      FlattenEmpty(ErrorsOf(presented));
      if Flatten(ErrorsOf(presented)) == [] {
        forall t | t in presented
          ensures slots[t].errors == []
        {
          var i :| 0 <= i < |presented| && presented[i] == t;
          assert ErrorsOf(presented)[i] == [];
        }
      }
    }

    /** `persist_models`: `persist_X` for every presented model in order;
        every record is saved even after one has failed, and the result is
        whether all were. Every presented record is held by now, so each
        `persist_X` is `save` on the record its accessor returns, the held
        one (see `PersistRecord`). A record that becomes persisted here has
        had its row inserted. */
    method PersistModels(persistence: Persistence, db: Database) returns (allSaved: bool)
      requires Built()
      modifies this`slots, Records()`errors, Records()`persisted, db
      ensures slots == old(slots)
      ensures allSaved <==> forall t :: t in Presented() ==> slots[t].WouldSave(persistence)
      ensures old(db.writes) <= db.writes
      ensures forall t :: t in Presented() && slots[t].WouldSave(persistence) ==> slots[t].persisted
      ensures forall r :: r in Records() && r.persisted && !old(r.persisted) ==>
                CommittedSince(db.writes, old(db.writes), Insert(r.model, r.attrs))
      ensures allSaved ==> AllPersisted() && |db.writes| == |old(db.writes)| + |Presented()|
    {
      var presented := Presented();
      allSaved := true;
      for i := 0 to |presented|
        invariant slots == old(slots)
        invariant allSaved <==> forall j :: 0 <= j < i ==> slots[presented[j]].WouldSave(persistence)
        invariant old(db.writes) <= db.writes
        invariant forall j :: 0 <= j < i && slots[presented[j]].WouldSave(persistence) ==> slots[presented[j]].persisted
        invariant forall r :: r in Records() && r.persisted && !old(r.persisted) ==>
                    CommittedSince(db.writes, old(db.writes), Insert(r.model, r.attrs))
        invariant allSaved ==> |db.writes| == |old(db.writes)| + i
      {
        ghost var before := db.writes;
        var record := slots[presented[i]];
        var recordSaved := record.Save(persistence, db);
        if recordSaved {
          CommittedSinceAppend(before, old(db.writes), db.writes[|db.writes| - 1]);
        }
        allSaved := allSaved && recordSaved;
      }
    }

    /** `wrap_in_database_transaction` around `persist_models`: when not every
        record saved, the transaction is rolled back, which undoes the writes
        made inside it and gives every held record back the `persisted?` flag
        it had when the transaction began. */
    method WrapInDatabaseTransaction(persistence: Persistence, db: Database) returns (allSaved: bool)
      requires Built()
      modifies this`slots, Records()`errors, Records()`persisted, db
      ensures slots == old(slots)
      ensures allSaved <==> forall t :: t in Presented() ==> slots[t].WouldSave(persistence)
      ensures allSaved ==> AllPersisted() && old(db.writes) <= db.writes && |db.writes| == |old(db.writes)| + |Presented()|
      ensures allSaved ==> forall t :: t in Presented() && !old(slots[t].persisted) ==>
                CommittedSince(db.writes, old(db.writes), Insert(slots[t].model, slots[t].attrs))
      ensures !allSaved ==> db.writes == old(db.writes) && forall r :: r in Records() ==> r.persisted == old(r.persisted)
    {
      var snapshot := db.writes;
      var flags := map r | r in Records() :: r.persisted;
      allSaved := PersistModels(persistence, db);
      if !allSaved {
        db.RollbackTo(snapshot);
        forall r | r in Records() {
          r.persisted := flags[r];
        }
      }
    }

    /** The before-save callbacks in their registration order:
        `delegate_attributes`, then `valid?`, whose false result halts the
        chain. */
    method RunBeforeSaveCallbacks(persistence: Persistence) returns (proceed: bool)
      modifies this`slots, this`errors, Records()`attrs, Records()`errors
      ensures Delegated() && Extends(old(slots))
      ensures forall t :: t in slots && t !in old(slots) ==> fresh(slots[t]) && slots[t].model == t && !slots[t].persisted
      ensures forall r, a :: r in old(Records()) && Get(r.attrs, a) != Get(old(r.attrs), a) ==>
                Listed(r, a)
      ensures proceed <==> errors == []
      ensures proceed ==> forall t :: t in Presented() ==> persistence.recordErrors(slots[t].model, slots[t].attrs) == []
      ensures proceed <==>
                (rules(fields) == [] &&
                 forall t :: t in Presented() ==> persistence.recordErrors(slots[t].model, slots[t].attrs) == [])
    {
      DelegateAttributes();
      proceed := IsValid(persistence);
      CopiedErrorsEmpty();
    }

    /** `save`: runs the before-save callbacks; when they do not halt, every
        presented record is saved inside one transaction, and the result is
        whether all of them were. */
    method Save(persistence: Persistence, db: Database) returns (saved: bool)
      modifies this`slots, this`errors, Records()`attrs, Records()`errors, Records()`persisted, db
      ensures Delegated() && Extends(old(slots))
      ensures forall t :: t in slots && t !in old(slots) ==> fresh(slots[t]) && slots[t].model == t
      ensures forall r, a :: r in old(Records()) && Get(r.attrs, a) != Get(old(r.attrs), a) ==>
                Listed(r, a)
      ensures saved <==> errors == [] && forall t :: t in Presented() ==> persistence.saveAccepted(slots[t].model, slots[t].attrs)
      ensures saved <==> rules(fields) == [] && forall t :: t in Presented() ==> slots[t].WouldSave(persistence)
      ensures saved ==> AllPersisted() && old(db.writes) <= db.writes && |db.writes| == |old(db.writes)| + |Presented()|
      ensures saved ==> forall t :: t in Presented() && !(t in old(slots) && old(slots[t].persisted)) ==>
                CommittedSince(db.writes, old(db.writes), Insert(slots[t].model, slots[t].attrs))
      ensures !saved ==> db.writes == old(db.writes)
      ensures !saved ==> forall t :: t in slots ==> slots[t].persisted == (t in old(slots) && old(slots[t].persisted))
    {
      var proceed := RunBeforeSaveCallbacks(persistence);
      if !proceed {
        saved := false;
        return;
      }
      saved := WrapInDatabaseTransaction(persistence, db);
    }

    /** `public_send "KEY=", value` for a key that has a setter: the attribute
        writer, or the record writer `X=`. */
    method Assign(p: Param)
      requires Known(decls, p)
      modifies this`slots, this`fields
      ensures p.SetField? ==> fields == old(fields)[p.attr := p.value] && slots == old(slots)
      ensures p.SetRecord? ==> p.tag in slots && fields == CopyAttributes(old(fields), Attrs(p.tag), slots[p.tag].attrs)
      ensures p.SetRecord? ==> p.tag in slots && slots == old(slots)[p.tag := slots[p.tag]]
      ensures p.SetRecord? && p.record != null ==> slots[p.tag] == p.record
      ensures p.SetRecord? && p.record == null ==> fresh(slots[p.tag]) && slots[p.tag].IsNew(p.tag)
    {
      match p
      case SetField(a, v) =>
        fields := fields[a := v];
      case SetRecord(t, record) =>
        AssignRecord(t, record);
    }

    /** `set_attributes`: calls the setter of every key in order (nothing for
        a nil hash) and stops at the first key without one. */
    method SetAttributes(params: Option<seq<Param>>) returns (result: Assignment)
      modifies this`slots, this`fields
      ensures result == AssignOutcome(decls, params)
      ensures fields == FieldsAfter(decls, old(AttrsOfRecords(ParamRecords(Entries(params)))), old(fields), Applied(decls, params))
      ensures SlotsAfter(old(slots), slots, Applied(decls, params))
      ensures forall t :: t in slots && LastAssigned(Applied(decls, params), t) == Some(null) ==>
                fresh(slots[t]) && slots[t].IsNew(t)
    {
      var ps := Entries(params);
      ghost var view := AttrsOfRecords(ParamRecords(ps));
      ghost var known := KnownPrefix(decls, ps);
      var i := 0;
      while i < |ps|
        invariant i <= known <= |ps|
        invariant fields == FieldsAfter(decls, view, old(fields), ps[..i])
        invariant SlotsAfter(old(slots), slots, ps[..i])
        invariant forall t :: t in slots && LastAssigned(ps[..i], t) == Some(null) ==>
                    fresh(slots[t]) && slots[t].IsNew(t)
        decreases |ps| - i
      {
        assert i == known ==> !Known(decls, ps[i]);
        if !Known(decls, ps[i]) {
          return UnknownAttribute(ParamName(ps[i]));
        }
        ghost var mid, before := slots, fields;
        Assign(ps[i]);
        assert ps[i].SetRecord? ==> slots[ps[i].tag].attrs == Loaded(view, ps[i].record);
        assert fields == AssignParam(decls, view, before, ps[i]);
        FieldsAfterPrefix(decls, view, old(fields), ps, i);
        SlotsAfterStep(old(slots), mid, slots, ps, i);
        LastAssignedSnoc(ps, i);
        i := i + 1;
      }
      result := Assigned;
    }

    /** `persisted?`: whether every presented model's record is persisted,
        asking them in order through the accessor (which builds a missing
        record) and stopping at the first that is not. */
    method IsPersisted() returns (persisted: bool)
      modifies this`slots
      ensures persisted <==> AllPersisted()
      ensures Extends(old(slots))
      ensures forall t :: t in slots && t !in old(slots) ==> t in Presented() && fresh(slots[t]) && slots[t].IsNew(t)
    {
      var presented := Presented();
      var i := 0;
      while i < |presented|
        invariant i <= |presented|
        invariant forall j :: 0 <= j < i ==> presented[j] in slots && slots[presented[j]].persisted
        invariant Extends(old(slots))
        invariant forall t :: t in slots && t !in old(slots) ==> t in presented && fresh(slots[t]) && slots[t].IsNew(t)
      {
        var record := RecordFor(presented[i]);
        if !record.persisted {
          return false;
        }
        i := i + 1;
      }
      return true;
    }

    /** `update_attributes`: assigns the params, then saves; an unknown key
        raises before anything is saved. */
    method UpdateAttributes(params: Option<seq<Param>>, persistence: Persistence, db: Database)
      returns (assignment: Assignment, saved: bool)
      modifies this`slots, this`fields, this`errors, db
      modifies Records()`attrs, Records()`errors, Records()`persisted
      modifies ParamRecords(Entries(params))`attrs, ParamRecords(Entries(params))`errors, ParamRecords(Entries(params))`persisted
      ensures assignment == AssignOutcome(decls, params)
      ensures fields == FieldsAfter(decls, old(AttrsOfRecords(ParamRecords(Entries(params)))), old(fields), Applied(decls, params))
      ensures assignment.UnknownAttribute? ==> !saved
      ensures !saved ==> db.writes == old(db.writes)
      ensures assignment == Assigned ==>
                Delegated() &&
                (saved <==> errors == [] && forall t :: t in Presented() ==> persistence.saveAccepted(slots[t].model, slots[t].attrs)) &&
                (saved <==> rules(fields) == [] && forall t :: t in Presented() ==> slots[t].WouldSave(persistence))
      ensures saved ==> AllPersisted() && old(db.writes) <= db.writes && |db.writes| == |old(db.writes)| + |Presented()|
    {
      assignment := SetAttributes(params);
      if assignment.UnknownAttribute? {
        return assignment, false;
      }
      SlotsAfterSources(old(slots), slots, Applied(decls, params));
      assert ParamRecords(Applied(decls, params)) <= ParamRecords(Entries(params));
      saved := Save(persistence, db);
    }
  }

  /** `FormClass.new(params)`: a form object with nothing set, then the
      params assigned; an unknown key raises out of `new`. */
  method New(decls: seq<Decl>, rules: map<Attr, Value> -> seq<ErrorEntry>, params: Option<seq<Param>>)
    returns (form: FormObject, assignment: Assignment)
    ensures fresh(form) && form.decls == decls && form.rules == rules && form.errors == []
    ensures assignment == AssignOutcome(decls, params)
    ensures form.fields == FieldsAfter(decls, AttrsOfRecords(ParamRecords(Entries(params))), map[], Applied(decls, params))
    ensures SlotsAfter(map[], form.slots, Applied(decls, params))
  {
    form := new FormObject(decls, rules);
    assignment := form.SetAttributes(params);
  }
}

=== FILE: presenting.dfy ===
/**
 * The `presents` macro: a form class records one binding declaration per
 * `present_model(model, *attributes)` call. Instead of synthesising a module
 * of methods per call, the model keeps the ordered sequence of declarations;
 * every per-binding operation of a form object is then looked up in it by
 * model tag.
 */
module Presenting {
  import opened Values

  /** One `present_model(model, *attributes)` call: a model and the attribute
      names the form object exposes for it. */
  datatype Decl = Decl(model: Tag, attrs: seq<Attr>)

  /** One argument of `presents(*args)`: a model class, an attribute name, or a
      hash from model classes to attribute lists (in insertion order). */
  datatype Arg = ModelArg(model: Tag) | AttrArg(attr: Attr) | HashArg(entries: seq<(Tag, seq<Attr>)>)

  /** The Ruby exceptions a malformed `presents` call raises. */
  datatype ConfigError =
    | WrongArgumentCount  // `present_model` called without a model
    | NotAHash            // a single argument that cannot be iterated as a hash
    | NotAModel           // the first argument has no `model_name`
    | NotAnAttribute      // `attr_accessor` given something that is not a name

  datatype Outcome = Pass | Fail(error: ConfigError)

  /** The declarations a hash of `model => attributes` entries stands for, in
      the hash's iteration order. */
  function HashDecls(entries: seq<(Tag, seq<Attr>)>): seq<Decl>
  {
    seq(|entries|, i requires 0 <= i < |entries| => Decl(entries[i].0, entries[i].1))
  }

  /** The attribute names of a run of `AttrArg` arguments. */
  function AttrNames(args: seq<Arg>): seq<Attr>
    requires forall i :: 0 <= i < |args| ==> args[i].AttrArg?
  {
    seq(|args|, i requires 0 <= i < |args| && args[i].AttrArg? => args[i].attr)
  }

  /** A form class: the declarations made by its `presents` calls, in order. */
  class FormClass {
    var decls: seq<Decl>

    constructor ()
      ensures decls == []
    {
      decls := [];
    }

    /** `present_model(model, *attributes)`: includes one more binding. */
    method PresentModel(model: Tag, attrs: seq<Attr>)
      modifies this
      ensures decls == old(decls) + [Decl(model, attrs)]
    {
      decls := decls + [Decl(model, attrs)];
    }

    /** `present_models(options)`: one `present_model` per hash entry, in the
        hash's iteration order. */
    method PresentModels(entries: seq<(Tag, seq<Attr>)>)
      modifies this
      ensures decls == old(decls) + HashDecls(entries)
    {
      for i := 0 to |entries|
        invariant decls == old(decls) + HashDecls(entries[..i])
      {
        assert HashDecls(entries[..i + 1]) == HashDecls(entries[..i]) + [Decl(entries[i].0, entries[i].1)];
        PresentModel(entries[i].0, entries[i].1);
      }
      assert entries[..|entries|] == entries;
    }

    /** `presents(*args)`: exactly one argument is taken as a hash for
        `present_models`; any other number of arguments is
        `present_model(model, *attributes)`. A malformed call raises and
        registers nothing. */
    method Presents(args: seq<Arg>) returns (outcome: Outcome)
      modifies this
      ensures |args| == 1 && args[0].HashArg? ==>
                outcome == Pass && decls == old(decls) + HashDecls(args[0].entries)
      ensures |args| == 1 && !args[0].HashArg? ==> outcome == Fail(NotAHash)
      ensures |args| == 0 ==> outcome == Fail(WrongArgumentCount)
      ensures |args| >= 2 && !args[0].ModelArg? ==> outcome == Fail(NotAModel)
      ensures |args| >= 2 && args[0].ModelArg? && (exists i :: 1 <= i < |args| && !args[i].AttrArg?) ==>
                outcome == Fail(NotAnAttribute)
      ensures |args| >= 2 && args[0].ModelArg? && (forall i :: 1 <= i < |args| ==> args[i].AttrArg?) ==>
                outcome == Pass && decls == old(decls) + [Decl(args[0].model, AttrNames(args[1..]))]
      ensures outcome.Fail? ==> decls == old(decls)
    {
      if |args| == 1 {
        match args[0]
        case HashArg(entries) =>
          PresentModels(entries);
          outcome := Pass;
        case _ =>
          outcome := Fail(NotAHash);
      } else if |args| == 0 {
        outcome := Fail(WrongArgumentCount);
      } else if !args[0].ModelArg? {
        outcome := Fail(NotAModel);
      } else if exists i :: 1 <= i < |args| && !args[i].AttrArg? {
        outcome := Fail(NotAnAttribute);
      } else {
        PresentModel(args[0].model, AttrNames(args[1..]));
        outcome := Pass;
      }
    }
  }

  /** Whether some declaration binds model `m`. */
  predicate Declared(decls: seq<Decl>, m: Tag)
  {
    exists i :: 0 <= i < |decls| && decls[i].model == m
  }

  /** The position of the first declaration of model `m`. */
  function FirstDecl(decls: seq<Decl>, m: Tag): (k: nat)
    requires Declared(decls, m)
    ensures k < |decls| && decls[k].model == m
    ensures forall i :: 0 <= i < k ==> decls[i].model != m
  {
    if decls[0].model == m then 0
    else
      assert Declared(decls[1..], m) by {
        var i :| 0 <= i < |decls| && decls[i].model == m;
        assert decls[1..][i - 1].model == m;
      }
      1 + FirstDecl(decls[1..], m)
  }

  /** The first declaration of a model declared in a prefix is found in that prefix. */
  lemma FirstDeclInPrefix(decls: seq<Decl>, n: nat, m: Tag)
    requires n <= |decls| && Declared(decls[..n], m)
    ensures Declared(decls, m) && FirstDecl(decls, m) == FirstDecl(decls[..n], m)
  {
    var k := FirstDecl(decls[..n], m);
    assert decls[k].model == m;
    var k' := FirstDecl(decls, m);
    assert k' <= k;
    assert decls[..n][k'].model == m;
  }

  /** A model not declared in a prefix is first declared right after it. */
  lemma FirstDeclAfterPrefix(decls: seq<Decl>, n: nat)
    requires n < |decls| && !Declared(decls[..n], decls[n].model)
    ensures Declared(decls, decls[n].model) && FirstDecl(decls, decls[n].model) == n
  {
    var m := decls[n].model;
    assert forall i :: 0 <= i < n ==> decls[..n][i] == decls[i];
  }

  /** The models declared by `decls` are those of its prefix and its last one. */
  lemma DeclaredSnoc(decls: seq<Decl>)
    requires decls != []
    ensures forall m :: Declared(decls, m) <==> Declared(decls[..|decls| - 1], m) || m == decls[|decls| - 1].model
  {
    var prefix := decls[..|decls| - 1];
    forall m | Declared(decls, m) && m != decls[|decls| - 1].model ensures Declared(prefix, m) {
      var i :| 0 <= i < |decls| && decls[i].model == m;
      assert prefix[i].model == m;
    }
    forall m | Declared(prefix, m) ensures Declared(decls, m) {
      var i :| 0 <= i < |prefix| && prefix[i].model == m;
      assert decls[i].model == m;
    }
  }

  /** `presented_models`: each binding's override calls `super` and appends its
      model unless already listed; the base list is empty. */
  function PresentedModels(decls: seq<Decl>): (r: seq<Tag>)
    ensures forall m :: m in r <==> Declared(decls, m)
  {
    if decls == [] then []
    else
      var n := |decls| - 1;
      DeclaredSnoc(decls);
      var orig := PresentedModels(decls[..n]);
      if decls[n].model in orig then orig else orig + [decls[n].model]
  }

  /** Every declared model is listed exactly once. */
  lemma {:induction false} PresentedModelsDistinct(decls: seq<Decl>)
    ensures forall i, j :: 0 <= i < j < |PresentedModels(decls)| ==> PresentedModels(decls)[i] != PresentedModels(decls)[j]
  {
    if decls != [] {
      PresentedModelsDistinct(decls[..|decls| - 1]);
    }
  }

  /** The models are listed in the order of their first declaration. */
  lemma {:induction false} PresentedModelsOrder(decls: seq<Decl>)
    ensures forall i, j :: 0 <= i < j < |PresentedModels(decls)| ==>
              FirstDecl(decls, PresentedModels(decls)[i]) < FirstDecl(decls, PresentedModels(decls)[j])
  {
    if decls != [] {
      var n := |decls| - 1;
      var orig := PresentedModels(decls[..n]);
      PresentedModelsOrder(decls[..n]);
      forall m | m in orig ensures FirstDecl(decls, m) == FirstDecl(decls[..n], m) {
        FirstDeclInPrefix(decls, n, m);
      }
      if decls[n].model !in orig {
        FirstDeclAfterPrefix(decls, n);
        forall m | m in orig ensures FirstDecl(decls, m) < n {
          assert FirstDecl(decls[..n], m) < n;
        }
      }
    }
  }

  /** The attributes a form object exposes: every `attr_accessor` of every
      declaration. */
  function FormAttrs(decls: seq<Decl>): set<Attr>
  {
    set i, a | 0 <= i < |decls| && a in decls[i].attrs :: a
  }

  /** The attribute list that `load_X_attributes` and `delegate_X_attributes`
      use for model `t`: a later declaration of the same model is included
      later and so overrides the earlier methods. */
  function AttrsFor(decls: seq<Decl>, t: Tag): seq<Attr>
  {
    if decls == [] then []
    else if decls[|decls| - 1].model == t then decls[|decls| - 1].attrs
    else AttrsFor(decls[..|decls| - 1], t)
  }

  /** The list is that of the last declaration of `t`, and empty when `t` is
      not declared. */
  lemma {:induction false} AttrsForLastDecl(decls: seq<Decl>, t: Tag)
    ensures !Declared(decls, t) ==> AttrsFor(decls, t) == []
    ensures Declared(decls, t) ==>
              exists k :: 0 <= k < |decls| && decls[k].model == t && AttrsFor(decls, t) == decls[k].attrs &&
                          forall i :: k < i < |decls| ==> decls[i].model != t
  {
    if decls != [] {
      var n := |decls| - 1;
      DeclaredSnoc(decls);
      if decls[n].model != t {
        AttrsForLastDecl(decls[..n], t);
        if Declared(decls, t) {
          var k :| 0 <= k < n && decls[..n][k].model == t && AttrsFor(decls[..n], t) == decls[..n][k].attrs &&
                   forall i :: k < i < n ==> decls[..n][i].model != t;
          assert forall i :: k < i < |decls| ==> decls[i].model != t by {
            forall i | k < i < |decls| ensures decls[i].model != t {
              if i < n { assert decls[..n][i] == decls[i]; }
            }
          }
        }
      }
    }
  }

  /** Every listed attribute is exposed by the form object. */
  lemma {:induction false} AttrsForExposed(decls: seq<Decl>, t: Tag)
    ensures forall a :: a in AttrsFor(decls, t) ==> a in FormAttrs(decls)
  {
    if decls != [] {
      var n := |decls| - 1;
      if decls[n].model != t {
        AttrsForExposed(decls[..n], t);
        forall a | a in AttrsFor(decls, t) ensures a in FormAttrs(decls) {
          assert a in FormAttrs(decls[..n]);
          var i :| 0 <= i < n && a in decls[..n][i].attrs;
          assert a in decls[i].attrs;
        }
      }
    }
  }

  /** The copy done by `load_X_attributes` (record to form) and by
      `delegate_X_attributes` (form to record): for each listed attribute in
      turn, `dst.attr = src.attr`. */
  function CopyAttributes(dst: map<Attr, Value>, attrs: seq<Attr>, src: map<Attr, Value>): (r: map<Attr, Value>)
    ensures forall a :: Get(r, a) == if a in attrs then Get(src, a) else Get(dst, a)
  {
    if attrs == [] then dst
    else
      var n := |attrs| - 1;
      CopyAttributes(dst, attrs[..n], src)[attrs[n] := Get(src, attrs[n])]
  }

  /** The copy sets exactly the listed attributes besides those already set. */
  lemma {:induction false} CopyAttributesDomain(dst: map<Attr, Value>, attrs: seq<Attr>, src: map<Attr, Value>)
    ensures CopyAttributes(dst, attrs, src).Keys == dst.Keys + set a | a in attrs
  {
    if attrs != [] {
      var n := |attrs| - 1;
      CopyAttributesDomain(dst, attrs[..n], src);
      assert attrs == attrs[..n] + [attrs[n]];
    }
  }

  /** Copying the form's attributes to a record and loading them back leaves
      every attribute of the form reading as it did. */
  lemma LoadAfterDelegate(form: map<Attr, Value>, record: map<Attr, Value>, attrs: seq<Attr>)
    ensures forall a :: Get(CopyAttributes(form, attrs, CopyAttributes(record, attrs, form)), a) == Get(form, a)
  {
  }
}

=== FILE: records.dfy ===
/**
 * A persisted record as the form object sees it: an attribute map, a
 * `persisted?` flag and an errors collection, plus `valid?` and `save`. The
 * record's own validation rules and whether the database accepts a save are
 * supplied as a `Persistence` oracle.
 */
module Records {
  import opened Values
  import opened Transactions

  /** What the persistence framework decides: the errors a record's own
      validations report for given attribute values, and whether a save of a
      valid record goes through. */
  datatype Persistence = Persistence(
    recordErrors: (Tag, map<Attr, Value>) -> seq<ErrorEntry>,
    saveAccepted: (Tag, map<Attr, Value>) -> bool)

  class Record {
    const model: Tag
    var attrs: map<Attr, Value>
    var persisted: bool
    var errors: seq<ErrorEntry>

    /** `model.new`: a record with no attribute set, not persisted, no errors. */
    constructor (model: Tag)
      ensures IsNew(model)
    {
      this.model := model;
      attrs := map[];
      persisted := false;
      errors := [];
    }

    /** The state `model.new` leaves a record of model `t` in. */
    predicate IsNew(t: Tag)
      reads this
    {
      model == t && attrs == map[] && !persisted && errors == []
    }

    /** Whether `save` would succeed on the record's current attributes. */
    predicate WouldSave(p: Persistence)
      reads this`attrs
    {
      p.recordErrors(model, attrs) == [] && p.saveAccepted(model, attrs)
    }

    /** `valid?`: recomputes the errors from the current attributes and
        reports whether there are none. */
    method Validate(p: Persistence) returns (ok: bool)
      modifies this`errors
      ensures errors == p.recordErrors(model, attrs)
      ensures ok <==> errors == []
    {
      errors := p.recordErrors(model, attrs);
      ok := errors == [];
    }

    /** `save`: validates, and when the record is valid and the database
        accepts it, inserts its row (or updates it if already persisted) and
        marks it persisted. */
    method Save(p: Persistence, db: Database) returns (ok: bool)
      modifies this`errors, this`persisted, db
      ensures errors == p.recordErrors(model, attrs)
      ensures ok <==> WouldSave(p)
      ensures ok ==> persisted && db.writes == old(db.writes) + [SaveWrite(model, attrs, old(persisted))]
      ensures !ok ==> persisted == old(persisted) && db.writes == old(db.writes)
    {
      var valid := Validate(p);
      ok := valid && p.saveAccepted(model, attrs);
      if ok {
        db.Append(SaveWrite(model, attrs, persisted));
        persisted := true;
      }
    }
  }
}

=== FILE: transactions.dfy ===
/**
 * The database the presented records are written to, reduced to the journal
 * of writes it has committed. A transaction scope is a snapshot of that
 * journal; rolling back restores the snapshot, which undoes every write made
 * since it was taken.
 */
module Transactions {
  import opened Values

  /** A committed write: a new row for a record that was not yet persisted, or
      an update of the row of one that was. */
  datatype Write = Insert(model: Tag, row: map<Attr, Value>) | Update(model: Tag, row: map<Attr, Value>)

  /** The write `save` commits for a record of `model` with attributes `row`:
      an insert when the record was not yet persisted, an update when it was. */
  function SaveWrite(model: Tag, row: map<Attr, Value>, persisted: bool): Write
  {
    if persisted then Update(model, row) else Insert(model, row)
  }

  /** Whether `w` is among the writes a journal now holding `writes` has
      committed since it held `start`. */
  predicate CommittedSince(writes: seq<Write>, start: seq<Write>, w: Write)
  {
    start <= writes && w in writes[|start|..]
  }

  /** Committing one more write keeps every write committed since `start` and
      adds that one. */
  lemma CommittedSinceAppend(writes: seq<Write>, start: seq<Write>, w: Write)
    requires start <= writes
    ensures forall v :: CommittedSince(writes + [w], start, v) <==> CommittedSince(writes, start, v) || v == w
  {
    assert (writes + [w])[|start|..] == writes[|start|..] + [w];
  }

  class Database {
    var writes: seq<Write>

    constructor ()
      ensures writes == []
    {
      writes := [];
    }

    /** Commits one write. */
    method Append(w: Write)
      modifies this
      ensures writes == old(writes) + [w]
    {
      writes := writes + [w];
    }

    /** `raise ActiveRecord::Rollback` inside a transaction: every write made
        after `snapshot` was taken is undone. */
    method RollbackTo(snapshot: seq<Write>)
      requires snapshot <= writes
      modifies this
      ensures writes == snapshot
    {
      writes := snapshot;
    }
  }
}

=== FILE: validations.dfy ===
/**
 * The errors collection a validation pass builds: the errors of every
 * presented record, record by record, then those of the form's own rules.
 */
module Validations {
  import opened Values

  /** The entries of several errors collections, one collection after the
      other: what repeated `errors.add key, value` calls append. */
  function Flatten(collections: seq<seq<ErrorEntry>>): seq<ErrorEntry>
  {
    if collections == [] then []
    else Flatten(collections[..|collections| - 1]) + collections[|collections| - 1]
  }

  /** The flattened collection is empty exactly when every collection is. */
  lemma {:induction false} FlattenEmpty(collections: seq<seq<ErrorEntry>>)
    ensures Flatten(collections) == [] <==> forall i :: 0 <= i < |collections| ==> collections[i] == []
  {
    if collections != [] {
      var n := |collections| - 1;
      FlattenEmpty(collections[..n]);
      assert forall i :: 0 <= i < n ==> collections[..n][i] == collections[i];
    }
  }

  /** Every entry of every collection is copied, under the same attribute,
      and nothing else is. */
  lemma {:induction false} FlattenContains(collections: seq<seq<ErrorEntry>>, e: ErrorEntry)
    ensures e in Flatten(collections) <==> exists i :: 0 <= i < |collections| && e in collections[i]
  {
    if collections != [] {
      var n := |collections| - 1;
      FlattenContains(collections[..n], e);
      assert forall i :: 0 <= i < n ==> collections[..n][i] == collections[i];
    }
  }
}

=== FILE: values.dfy ===
/**
 * Shared vocabulary of the form-object model: attribute names, model tags,
 * attribute values and validation error entries.
 */
module Values {

  /** The name of an attribute (`:title`, `:body`). */
  type Attr = string

  /** A model's singular name (`model.model_name.singular`), which keys every
      per-binding operation (`post`, `build_post`, `persist_post`, ...). */
  type Tag = string

  /** An attribute value; `Nil` is Ruby's `nil`, the value of an attribute that
      was never assigned. */
  datatype Value = Nil | Str(text: string)

  /** One `(attribute, message)` pair of an errors collection. */
  datatype ErrorEntry = ErrorEntry(attr: Attr, message: string)

  datatype Option<T> = None | Some(value: T)

  /** Reads an attribute from an attribute map; an absent attribute reads as `nil`. */
  function Get(m: map<Attr, Value>, a: Attr): Value
  {
    if a in m then m[a] else Nil
  }
}
